=== FILE: README.md ===
# Dashboard widget catalog, modelled in Dafny

The dashboard lets a user arrange widget shortcuts into named categories.
This model covers its widget catalog. A widget has a label and an image URL.
A category has a name and an ordered list of widgets. The catalog is an
ordered list of categories, kept in the component's `categories` state and
written through to one browser storage slot.

The model covers the operations the component performs on that catalog:

- loading it, or seeding it on a first visit;
- saving it;
- adding a widget;
- adding a category;
- removing a widget;
- computing the displayed list from a search term and a selected category.

Modules:

- `JsArray` (js_array.dfy): the array methods the pipelines use. It has
  `map`, `filter` and the index filter `filter((_, i) => i !== index)`, with
  their order and membership facts.
- `JsString` (js_string.dfy): the string methods the component calls. It has
  `trim` (with ECMAScript's whitespace set), `toLowerCase` and `includes`.
- `Catalog` (catalog.dfy): widgets, categories, the three-category seed, the
  `findIndex` lookup by name, and the catalog that results from adding a widget.
- `Removal` (removal.dfy): the `map`/`filter` pipeline of `handleRemoveButton`.
- `View` (view.dfy): `filteredCategories` and the selected-category filter.
  It also holds the per-widget remove button of the rendered list (see
  Findings).
- `DashboardStore` (dashboard.dfy): class `Dashboard`. It has a `stored`
  field (the storage slot, `None` when empty) and a `categories` field. Its
  methods are `fetchData`, `saveCategoriesToLocalStorage` and the three event
  handlers, each stating its new state and write-through
  (`stored == Some(categories)`). It also has `RemoveShownButton`, the
  corrected remove button of Findings, which the code does not have.

## Behaviour worth noting

The model keeps these behaviours of the code:

- Loading: `fetchData` passes the stored string to `JSON.parse` with no guard
  (line 72), so stored text that does not parse throws instead of being
  replaced by the seed.
- Removal with an unknown category name: no widget is removed, but line 145
  still prunes every empty category (`RemoveNothingStillPrunes`). So an empty
  category made by "Add Category" disappears at the next removal of any
  widget.
- Duplicate names: `handleAddCategory` appends without looking for an existing
  category of that name (line 128), so a name can be added twice
  (`AddCategoryUniqueIff`). Adding and removing widgets do keep names unique
  (`AddButtonKeepsNamesUnique`, `WithoutButtonKeepsOrder`).
- Category filter: line 193 keeps every category whose name equals the
  selected one, so all categories sharing that name are displayed.

## Model

| member | source | states |
|---|---|---|
| `Catalog.InitialData` | src/Components/Dashboard.js:4-49 | the seed has exactly three categories, each with exactly two widgets, named "CSPM Executive Dashboard", "CWPP Dashboard" and "Registry Scan" in that order |
| `Catalog.InitialDataNamesUnique` | src/Components/Dashboard.js:4-49 | no two seed categories share a name |
| `Catalog.FindIndex` | src/Components/Dashboard.js:100-102 | the result is -1 exactly when no category has the name; otherwise it is the position of the first category with that name |
| `Catalog.WithButton` | src/Components/Dashboard.js:100-115 | adding a widget keeps every existing category's name in its position, adds a category exactly when none had the name, and afterwards a category with the name exists |
| `Catalog.AddToExisting` | src/Components/Dashboard.js:100-115 | adding under an existing name keeps the number of categories. The first category with that name gets the widget as its new last button. Every other category is unchanged |
| `Catalog.AddCreatesCategory` | src/Components/Dashboard.js:100-109 | adding under a name no category has appends exactly one category at the end, with that name and the single given widget |
| `Catalog.AddButtonKeepsNamesUnique` | src/Components/Dashboard.js:100-115 | adding a widget keeps category names unique, and afterwards a category with that name exists |
| `Catalog.AddCategoryUniqueIff` | src/Components/Dashboard.js:128 | appending an empty category keeps names unique if and only if they were unique and the name is new, so a duplicate name is admitted |
| `JsString.Trim` | src/Components/Dashboard.js:123 | trim gives the empty string exactly when every character is JavaScript whitespace; otherwise neither end of the result is whitespace |
| `JsString.TrimStart` | src/Components/Dashboard.js:123 | the result is the suffix of the input left after a run of whitespace, and it starts with a non-whitespace character |
| `JsString.TrimEnd` | src/Components/Dashboard.js:123 | the result is the prefix of the input left before a run of whitespace, and it ends with a non-whitespace character |
| `JsString.ToLower` | src/Components/Dashboard.js:154 | the length is kept, the result has no upper-case ASCII letter, and only upper-case letters are changed (each to its lower-case letter) |
| `JsString.IncludesIffOccurs` | src/Components/Dashboard.js:154 | `includes` holds exactly when the term occurs at some position of the string |
| `JsString.Includes` | src/Components/Dashboard.js:154 | a term longer than the string is never included; the empty term and the string itself always are |
| `JsArray.Map` | src/Components/Dashboard.js:135-144 | `map` returns one result per input, and each result is `f` of the input at the same position |
| `JsArray.Filter` | src/Components/Dashboard.js:145 | `filter` keeps at most as many elements as it is given, and every kept element passes the predicate |
| `JsArray.FilterMembers` | src/Components/Dashboard.js:145 | an element is kept exactly when it was given and passes the predicate |
| `JsArray.FilterCounts` | src/Components/Dashboard.js:145-157 | every element that passes is kept exactly as many times as it occurs, and no other element is kept, so duplicate widgets survive a search |
| `JsArray.FilterIsSubsequence` | src/Components/Dashboard.js:145 | the kept elements keep their original relative order |
| `JsArray.DropAt` | src/Components/Dashboard.js:138-140 | the index filter removes one element when the index is in range and none otherwise |
| `JsArray.DropAtIsSplice` | src/Components/Dashboard.js:138-140 | the index filter equals the list minus exactly the element at the index, or the whole list when the index is out of range |
| `Removal.Touch` | src/Components/Dashboard.js:136-144 | the `map` step keeps the category's name; a category with the given name loses exactly the widget at the index when it is in range, and every other category keeps its widgets |
| `Removal.WithoutButton` | src/Components/Dashboard.js:134-145 | after a removal no category has an empty button list |
| `Removal.WithoutButtonKeepsOrder` | src/Components/Dashboard.js:135-145 | the surviving category names are a subsequence of the old ones, so relative order is kept; unique names stay unique |
| `Removal.WithoutButtonKeepsOthers` | src/Components/Dashboard.js:136-145 | a category with another name is in the result exactly when it was in the catalog with at least one widget, with its buttons unchanged |
| `Removal.WithoutButtonFromNamed` | src/Components/Dashboard.js:137-145 | each category with the given name loses exactly the widget at the index and survives when widgets remain. Each surviving category with that name is such a category |
| `Removal.RemoveNothingStillPrunes` | src/Components/Dashboard.js:137-145 | an unknown name or an out-of-range index removes no widget, but the result is still the catalog with its empty categories pruned |
| `View.FilteredCategories` | src/Components/Dashboard.js:150-157 | the filtered list is no longer than the catalog, each entry has at least one widget, and every widget in it matches the search term |
| `View.SelectCategory` | src/Components/Dashboard.js:191-194 | the category filter keeps only categories of the catalog, each with the selected name when one is selected, keeps every catalog category that has the selected name (all of them when none is selected), and keeps the whole list when none is |
| `View.Displayed` | src/Components/Dashboard.js:190-194 | the displayed list is no longer than the catalog, and each displayed category has widgets and the selected name when one is selected |
| `View.DisplayedSound` | src/Components/Dashboard.js:150-194 | every displayed category is non-empty and belongs to the selection. Every displayed widget's lower-cased label contains the lower-cased search term |
| `View.DisplayedComplete` | src/Components/Dashboard.js:150-194 | a selected category with at least one matching widget is displayed, cut down to its matching widgets |
| `View.DisplayedFromCatalog` | src/Components/Dashboard.js:150-194 | every displayed category is a catalog category cut down to its matching widgets |
| `View.DisplayedKeepsOrder` | src/Components/Dashboard.js:150-194 | the displayed list is a subsequence of the catalog's categories, each cut down to its matching widgets, so displayed categories (and their names) keep catalog order even when names repeat |
| `View.EmptySearchShowsAll` | src/Components/Dashboard.js:150-157 | with an empty search term, the filtered list is the catalog minus its empty categories |
| `View.NoSelectionShowsFiltered` | src/Components/Dashboard.js:190-194 | with no category selected, the displayed list is the text-filtered list |
| `View.FilterOrderIrrelevant` | src/Components/Dashboard.js:190-194 | applying the text filter before the category filter, as the code does, gives the same list as the reverse order |
| `View.RemoveAtViewIndex` | src/Components/Dashboard.js:199-207 | as written: the displayed position is applied to the full list, and the result has no empty category; with no search term it equals the corrected button's result |
| `View.ViewIndexRemovesHiddenWidget` | src/Components/Dashboard.js:199-207 | as written: with search term "y" over category A = [x, y], the remove button of the one displayed widget y removes x, and the display does not change |
| `View.WithoutShownButton` | src/Components/Dashboard.js:199-207 | corrected remove button: after it, no category has an empty button list |
| `View.WithoutShownButtonHidesClicked` | src/Components/Dashboard.js:199-207 | corrected remove button: a category with the clicked name then displays its previous widgets minus exactly the clicked one, and stays in the catalog if widgets remain |
| `View.WithoutShownButtonKeepsOthers` | src/Components/Dashboard.js:199-207 | corrected remove button, nothing else changes: a category of another name is in the result exactly when it was in the catalog with widgets, and each surviving category of the clicked name is a catalog category of that name less the widget at the translated position |
| `View.NoSearchTermSameRemoval` | src/Components/Dashboard.js:199-207 | with an empty search term, the corrected and the as-written remove buttons produce the same catalog |
| `DashboardStore.Dashboard.constructor` | src/Components/Dashboard.js:55 | a mounted component starts with an empty catalog over the given storage slot |
| `DashboardStore.Dashboard.SaveCategories` | src/Components/Dashboard.js:79-82 | storage then holds exactly the given catalog, and so does the in-memory state |
| `DashboardStore.Dashboard.FetchData` | src/Components/Dashboard.js:69-77 | a stored catalog is adopted unchanged. With nothing stored, the seed is stored and adopted. Storage equals the in-memory catalog afterwards |
| `DashboardStore.Dashboard.AddButton` | src/Components/Dashboard.js:94-120 | succeeds exactly when the category name is non-empty. A rejection changes neither state nor storage. A success makes the catalog the add-widget result and writes it through |
| `DashboardStore.Dashboard.AddCategory` | src/Components/Dashboard.js:122-132 | succeeds exactly when the name is not all whitespace. A rejection changes nothing. A success appends the untrimmed name with no widgets and writes it through |
| `DashboardStore.Dashboard.RemoveButton` | src/Components/Dashboard.js:134-148 | the catalog becomes the removal result, and storage holds it |
| `DashboardStore.Dashboard.RemoveShownButton` | src/Components/Dashboard.js:199-207 | the catalog becomes the corrected remove button's result, and storage holds it |
| `DashboardStore.LoadTwice` | src/Components/Dashboard.js:65-77 | two loads in a row give the same catalog. From an empty slot both give the seed, and the second reads it back from storage |

## Left out

- Rendering: JSX, CSS, the overlay toggles (lines 84-87) and the form-field state (`handleInputChange`, and resetting `newButton` and `newCategory`, lines 89-92, 118, 130) are presentation only.
- `alert` (lines 96 and 124): a rejection is the method's `false` result, with state and storage unchanged.
- `localStorage` and `JSON.stringify`/`JSON.parse` (lines 70-72 and 80): storage is an optional catalog value. Serialisation and its round trip are not modelled. `localStorage.setItem` can throw (for example when storage is full), leaving the state unchanged; the model's `SaveCategories` always succeeds.
- Stored values that are not a catalog are not modelled. Malformed JSON makes `JSON.parse` throw in the code. An empty stored string is falsy, so it would be treated as absent.
- The seed's `id` fields are dropped: nothing reads them.
- JsString.ToLower: folds only ASCII `A`-`Z`. The full Unicode case mapping of `toLowerCase` is not modelled.
- Strings are sequences of Unicode scalar values, not UTF-16 code units.
- Aliasing at line 111: `push` mutates a category object that the previous state shares. The model works on values, so the old state is never altered.
- React's `useState`/`useEffect` and batched asynchronous state updates: each state update is an immediate field assignment.
- The category picker offers only existing names. The model accepts any string as the category name of a new widget.
- Image fetching and display.
- src/App.js only renders the component. It is not part of this model.

## Findings

| source | as written | input that shows it | evidently intended | confidence | as-written member | corrected member |
|---|---|---|---|---|---|---|
| src/Components/Dashboard.js:199-207 | the remove button passes `handleRemoveButton` the widget's position in the search-filtered list, and `handleRemoveButton` uses it as a position in the category's full list | catalog `[A: [x, y]]`, search term "y", click the remove button of the one displayed widget `y` | remove the widget that was clicked (`y`) | high, not executed | `View.ViewIndexRemovesHiddenWidget` | `View.WithoutShownButtonHidesClicked` |

=== FILE: catalog.dfy ===
/**
 * The widget catalog: categories of widgets, the seed the dashboard starts
 * from, the lookup by name and the result of adding a widget.
 */
module Catalog {
  import opened JsArray

  /** A widget shortcut: a label and an image URL (an empty URL shows no image). */
  datatype Widget = Widget(text: string, image: string)

  /** A category: its name, which is also its lookup key, and its widgets in insertion order. */
  datatype Category = Category(name: string, buttons: seq<Widget>)

  function NameOf(c: Category): string {
    c.name
  }

  function Names(cats: seq<Category>): seq<string> {
    Map(cats, NameOf)
  }

  /** No two categories share a name. */
  ghost predicate UniqueNames(cats: seq<Category>) {
    Distinct(Names(cats))
  }

  predicate HasCategory(cats: seq<Category>, name: string) {
    exists i :: 0 <= i < |cats| && cats[i].name == name
  }

  // The seed's image URLs, one per widget.
  const CspmImage1 := "https://cdn1.iconfinder.com/data/icons/miscellaneous-4/32/dashboard-medium-1024.png"
  const CspmImage2 := "https://storage.googleapis.com/blogs-images/ciscoblogs/1/2021/10/Predictive-analytics-2.png"
  const CwppImage1 := "https://cdn4.iconfinder.com/data/icons/reports-and-analytics-2/512/89-512.png"
  const CwppImage2 := "https://komunigrafik.com/assets/all/img/showcase/zohobis/icon-hr-dashboard.png"
  const RegistryImage1 := "https://avatars.mds.yandex.net/i?id=3ed63176091581ae161646356c703daf9e0cf63c-9245612-images-thumbs&n=13"
  const RegistryImage2 := "https://avatars.mds.yandex.net/i?id=d17e35a4e1d74e0a55342b45280fba50ab61fdd6-10146075-images-thumbs&ref=rim&n=33&w=347&h=200"

  /** The catalog a first visit starts from: three categories of two widgets each. */
  function InitialData(): (r: seq<Category>)
    ensures |r| == 3
    ensures forall i :: 0 <= i < |r| ==> |r[i].buttons| == 2
    ensures r[0].name == "CSPM Executive Dashboard" && r[1].name == "CWPP Dashboard" && r[2].name == "Registry Scan"
  {
    [ Category("CSPM Executive Dashboard", [Widget("Widget1", CspmImage1), Widget("Widget2", CspmImage2)]),
      Category("CWPP Dashboard", [Widget("Widget1", CwppImage1), Widget("Widget2", CwppImage2)]),
      Category("Registry Scan", [Widget("Widget1", RegistryImage1), Widget("Widget2", RegistryImage2)]) ]
  }

  /** The seed's three names are different. */
  lemma InitialDataNamesUnique()
    ensures UniqueNames(InitialData())
  {
    var n := Names(InitialData());
    assert |n[0]| == 24 && |n[1]| == 14 && |n[2]| == 13;
  }

  /** `findIndex` by name: the first category called `name`, or -1 when there is none. */
  function FindIndex(cats: seq<Category>, name: string): (r: int)
    ensures -1 <= r < |cats|
    ensures r == -1 <==> !HasCategory(cats, name)
    ensures 0 <= r ==> cats[r].name == name && forall j :: 0 <= j < r ==> cats[j].name != name
  {
    if cats == [] then -1
    else if cats[0].name == name then 0
    else
      var k := FindIndex(cats[1..], name);
      assert forall j :: 1 <= j < |cats| ==> cats[j] == cats[1..][j - 1];
      if k == -1 then -1 else k + 1
  }

  /**
   * The catalog after adding `w` under `name`: appended to the first category
   * of that name, or to a new category at the end when none has it.
   */
  function WithButton(cats: seq<Category>, name: string, w: Widget): (r: seq<Category>)
    ensures |r| == if HasCategory(cats, name) then |cats| else |cats| + 1
    ensures forall j :: 0 <= j < |cats| ==> r[j].name == cats[j].name
    ensures HasCategory(r, name)
  {
    var i := FindIndex(cats, name);
    if i == -1 then
      assert (cats + [Category(name, [w])])[|cats|].name == name;
      cats + [Category(name, [w])]
    else cats[i := cats[i].(buttons := cats[i].buttons + [w])]
  }

  /** Adding under an existing name grows exactly that name's first category, by one widget at its end. */
  lemma AddToExisting(cats: seq<Category>, name: string, w: Widget, i: nat)
    requires i < |cats| && cats[i].name == name
    requires forall j :: 0 <= j < i ==> cats[j].name != name
    ensures |WithButton(cats, name, w)| == |cats|
    ensures WithButton(cats, name, w)[i] == Category(name, cats[i].buttons + [w])
    ensures forall j :: 0 <= j < |cats| && j != i ==> WithButton(cats, name, w)[j] == cats[j]
  {
  }

  /** Adding under a new name appends one category holding just that widget. */
  lemma AddCreatesCategory(cats: seq<Category>, name: string, w: Widget)
    requires !HasCategory(cats, name)
    ensures WithButton(cats, name, w) == cats + [Category(name, [w])]
  {
  }

  /** Adding a widget never makes two categories share a name. */
  lemma AddButtonKeepsNamesUnique(cats: seq<Category>, name: string, w: Widget)
    requires UniqueNames(cats)
    ensures UniqueNames(WithButton(cats, name, w))
    ensures HasCategory(WithButton(cats, name, w), name)
  {
    var r := WithButton(cats, name, w);
    if FindIndex(cats, name) == -1 {
      assert Names(r) == Names(cats) + [name];
      assert r[|cats|].name == name;
    } else {
      assert Names(r) == Names(cats);
    }
  }

  /** Adding a category keeps names unique exactly when the name is new: `handleAddCategory` does not check for an existing name. */
  lemma AddCategoryUniqueIff(cats: seq<Category>, name: string)
    ensures UniqueNames(cats + [Category(name, [])]) <==> UniqueNames(cats) && !HasCategory(cats, name)
  {
    var r := cats + [Category(name, [])];
    assert Names(r) == Names(cats) + [name];
    if UniqueNames(r) {
      assert Names(cats) == Names(r)[..|cats|];
      forall i | 0 <= i < |cats| ensures cats[i].name != name {
        assert Names(r)[i] == cats[i].name && Names(r)[|cats|] == name;
      }
    }
  }
}

=== FILE: dashboard.dfy ===
/**
 * The dashboard component's catalog state: the `categories` React state and
 * the browser storage slot under the key "categories". Every successful
 * mutation writes the whole new catalog to the slot and then adopts it.
 */
module DashboardStore {
  import opened Wrappers
  import opened JsString
  import opened Catalog
  import opened Removal
  import opened View

  class Dashboard {
    /** The storage slot: `None` when nothing is stored under "categories". */
    var stored: Option<seq<Category>>
    /** The in-memory catalog the view is computed from. */
    var categories: seq<Category>

    /** A freshly mounted component: empty state over whatever the browser has stored. */
    constructor (slot: Option<seq<Category>>)
      ensures stored == slot && categories == []
    {
      stored := slot;
      categories := [];
    }

    /** Storage holds exactly the in-memory catalog. */
    predicate WriteThrough()
      reads this
    {
      stored == Some(categories)
    }

    /** `saveCategoriesToLocalStorage`: replace the stored catalog, then the in-memory one. */
    method SaveCategories(cats: seq<Category>)
      modifies this
      ensures stored == Some(cats) && categories == cats
      ensures WriteThrough()
    {
      stored := Some(cats);
      categories := cats;
    }

    /** `fetchData`: adopt the stored catalog, or store and adopt the seed when nothing is stored. */
    method FetchData()
      modifies this
      ensures old(stored).Some? ==> stored == old(stored) && categories == old(stored).value
      ensures old(stored).None? ==> stored == Some(InitialData()) && categories == InitialData()
      ensures WriteThrough()
    {
      match stored
      case Some(cats) =>
        categories := cats;
      case None =>
        SaveCategories(InitialData());
    }

    /**
     * `handleAddButton`: rejected, with nothing changed, when no category is given;
     * otherwise the widget is pushed onto the first category of that name, or onto
     * the catalog as a new category, and the result is saved.
     */
    method AddButton(text: string, image: string, category: string) returns (ok: bool)
      modifies this
      ensures ok <==> category != ""
      ensures !ok ==> stored == old(stored) && categories == old(categories)
      ensures ok ==> categories == WithButton(old(categories), category, Widget(text, image))
      ensures ok ==> WriteThrough()
    {
      if category == "" {
        return false;
      }
      var w := Widget(text, image);
      var categoryIndex := FindIndex(categories, category);
      var updated := categories;
      if categoryIndex == -1 {
        updated := updated + [Category(category, [w])];
      } else {
        updated := updated[categoryIndex := updated[categoryIndex].(buttons := updated[categoryIndex].buttons + [w])];
      }
      SaveCategories(updated);
      ok := true;
    }

    /**
     * `handleAddCategory`: rejected, with nothing changed, when the name is blank;
     * otherwise the untrimmed name is appended as an empty category, even when a
     * category of that name exists, and the result is saved.
     */
    method AddCategory(name: string) returns (ok: bool)
      modifies this
      ensures ok <==> !AllWhitespace(name)
      ensures !ok ==> stored == old(stored) && categories == old(categories)
      ensures ok ==> categories == old(categories) + [Category(name, [])]
      ensures ok ==> WriteThrough()
    {
      if Trim(name) == "" {
        return false;
      }
      SaveCategories(categories + [Category(name, [])]);
      ok := true;
    }

    /** `handleRemoveButton`: drop the widget at `index` from each category called `name`, prune, save. */
    method RemoveButton(name: string, index: int)
      modifies this
      ensures categories == WithoutButton(old(categories), name, index)
      ensures WriteThrough()
    {
      SaveCategories(WithoutButton(categories, name, index));
    }

    /** The remove button of the displayed list, with its position translated back to the full list. */
    method RemoveShownButton(term: string, name: string, viewIndex: int)
      modifies this
      ensures categories == WithoutShownButton(old(categories), term, name, viewIndex)
      ensures WriteThrough()
    {
      SaveCategories(WithoutShownButton(categories, term, name, viewIndex));
    }
  }

  /**
   * Two loads without a mutation in between give the same catalog; from an
   * empty slot both give the seed, the second one read back from storage.
   */
  method LoadTwice(d: Dashboard) returns (first: seq<Category>, second: seq<Category>)
    modifies d
    ensures first == second && d.categories == second
    ensures old(d.stored).None? ==> first == InitialData() && d.stored == Some(InitialData())
    ensures old(d.stored).Some? ==> first == old(d.stored).value
    ensures d.WriteThrough()
  {
    d.FetchData();
    first := d.categories;
    d.FetchData();
    second := d.categories;
  }
}

=== FILE: js_array.dfy ===
/**
 * The two array methods the dashboard's pipelines are built from,
 * `Array.prototype.map` and `Array.prototype.filter`, on sequences,
 * together with the order facts the catalog lemmas rely on.
 */
module JsArray {

  /** `map`: one result per input, in the same positions. */
  function Map<T, U>(s: seq<T>, f: T -> U): (r: seq<U>)
    ensures |r| == |s|
    ensures forall i :: 0 <= i < |s| ==> r[i] == f(s[i])
  {
    if s == [] then [] else [f(s[0])] + Map(s[1..], f)
  }

  /** `filter`: exactly the elements satisfying `p`, none of the others. */
  function Filter<T(==)>(s: seq<T>, p: T -> bool): (r: seq<T>)
    ensures |r| <= |s|
    ensures forall i :: 0 <= i < |r| ==> p(r[i])
  {
    if s == [] then [] else (if p(s[0]) then [s[0]] else []) + Filter(s[1..], p)
  }

  /** An element is kept exactly when it is in `s` and passes `p`. */
  lemma {:induction false} FilterMembers<T>(s: seq<T>, p: T -> bool)
    ensures forall x :: x in Filter(s, p) <==> x in s && p(x)
  {
    if s != [] {
      FilterMembers(s[1..], p);
      assert forall x :: x in s <==> x == s[0] || x in s[1..];
    }
  }

  /** Filtering keeps every passing element as often as it occurs, and no other. */
  lemma {:induction false} FilterCounts<T>(s: seq<T>, p: T -> bool)
    ensures forall x :: multiset(Filter(s, p))[x] == if p(x) then multiset(s)[x] else 0
  {
    if s != [] {
      FilterCounts(s[1..], p);
      assert s == [s[0]] + s[1..];
    }
  }

  /** `a` is `b` with some elements left out, the rest in their original order. */
  ghost predicate IsSubsequence<T>(a: seq<T>, b: seq<T>)
    decreases |b|
  {
    a == [] || (b != [] && ((a[0] == b[0] && IsSubsequence(a[1..], b[1..])) || IsSubsequence(a, b[1..])))
  }

  /** No element occurs twice. */
  ghost predicate Distinct<T>(s: seq<T>) {
    forall i, j :: 0 <= i < j < |s| ==> s[i] != s[j]
  }

  /** Filtering keeps the survivors in their original relative order. */
  lemma {:induction false} FilterIsSubsequence<T>(s: seq<T>, p: T -> bool)
    ensures IsSubsequence(Filter(s, p), s)
  {
    if s != [] {
      FilterIsSubsequence(s[1..], p);
      var rest := Filter(s[1..], p);
      assert Filter(s, p) == (if p(s[0]) then [s[0]] else []) + rest;
      if p(s[0]) {
        assert Filter(s, p)[1..] == rest;
      } else if rest != [] {
        assert Filter(s, p) == rest;
      }
    }
  }

  /** A filter that every element passes changes nothing. */
  lemma {:induction false} FilterKeepsAll<T>(s: seq<T>, p: T -> bool)
    requires forall i :: 0 <= i < |s| ==> p(s[i])
    ensures Filter(s, p) == s
  {
    if s != [] {
      FilterKeepsAll(s[1..], p);
    }
  }

  /** Two filters may be applied in either order. */
  lemma {:induction false} FilterCommutes<T>(s: seq<T>, p: T -> bool, q: T -> bool)
    ensures Filter(Filter(s, p), q) == Filter(Filter(s, q), p)
  {
    if s != [] {
      var x, a, b := s[0], Filter(s[1..], p), Filter(s[1..], q);
      FilterCommutes(s[1..], p, q);
      assert Filter(s, p) == (if p(x) then [x] + a else a);
      assert Filter(s, q) == (if q(x) then [x] + b else b);
      if p(x) {
        FilterOfPrepend(x, a, q);
      }
      if q(x) {
        FilterOfPrepend(x, b, p);
      }
    }
  }

  lemma FilterOfPrepend<T>(x: T, s: seq<T>, p: T -> bool)
    ensures Filter([x] + s, p) == (if p(x) then [x] else []) + Filter(s, p)
  {
    assert ([x] + s)[1..] == s;
  }

  /** A filter on a property that `f` does not change may be applied before or after mapping `f`. */
  lemma {:induction false} FilterMapSwap<T>(s: seq<T>, f: T -> T, q: T -> bool)
    requires forall x :: q(f(x)) == q(x)
    ensures Filter(Map(s, f), q) == Map(Filter(s, q), f)
  {
    if s != [] {
      FilterMapSwap(s[1..], f, q);
      assert Map(s, f)[1..] == Map(s[1..], f);
      if q(s[0]) {
        assert Map(Filter(s, q), f) == [f(s[0])] + Map(Filter(s[1..], q), f);
      }
    }
  }

  /** Mapping both sides keeps the subsequence relation. */
  lemma {:induction false} SubsequenceMap<T, U>(a: seq<T>, b: seq<T>, f: T -> U)
    requires IsSubsequence(a, b)
    ensures IsSubsequence(Map(a, f), Map(b, f))
    decreases |b|
  {
    if a != [] {
      assert Map(b, f)[1..] == Map(b[1..], f);
      if a[0] == b[0] && IsSubsequence(a[1..], b[1..]) {
        SubsequenceMap(a[1..], b[1..], f);
        assert Map(a, f)[1..] == Map(a[1..], f);
      } else {
        SubsequenceMap(a, b[1..], f);
      }
    }
  }

  lemma {:induction false} SubsequenceTransitive<T>(a: seq<T>, b: seq<T>, c: seq<T>)
    requires IsSubsequence(a, b) && IsSubsequence(b, c)
    ensures IsSubsequence(a, c)
    decreases |c|
  {
    if a != [] {
      if IsSubsequence(b, c[1..]) {
        SubsequenceTransitive(a, b, c[1..]);
      } else if a[0] == b[0] && IsSubsequence(a[1..], b[1..]) {
        SubsequenceTransitive(a[1..], b[1..], c[1..]);
      } else {
        SubsequenceTransitive(a, b[1..], c[1..]);
      }
    }
  }

  lemma {:induction false} SubsequenceElements<T>(a: seq<T>, b: seq<T>)
    requires IsSubsequence(a, b)
    ensures forall x :: x in a ==> x in b
    decreases |b|
  {
    if a != [] {
      if a[0] == b[0] && IsSubsequence(a[1..], b[1..]) {
        SubsequenceElements(a[1..], b[1..]);
        assert forall x :: x in a ==> x == a[0] || x in a[1..];
      } else {
        SubsequenceElements(a, b[1..]);
      }
    }
  }

  /** Leaving elements out cannot create a repetition. */
  lemma {:induction false} SubsequenceDistinct<T>(a: seq<T>, b: seq<T>)
    requires IsSubsequence(a, b) && Distinct(b)
    ensures Distinct(a)
    decreases |b|
  {
    if a != [] {
      if a[0] == b[0] && IsSubsequence(a[1..], b[1..]) {
        SubsequenceDistinct(a[1..], b[1..]);
        SubsequenceElements(a[1..], b[1..]);
        forall i, j | 0 <= i < j < |a| ensures a[i] != a[j] {
          if i == 0 {
            assert a[j] == a[1..][j - 1];
            assert a[j] in b[1..];
          } else {
            assert a[i] == a[1..][i - 1] && a[j] == a[1..][j - 1];
          }
        }
      } else {
        SubsequenceDistinct(a, b[1..]);
      }
    }
  }

  /** `filter((_, i) => i !== index)`: keeps every position but `index`. */
  function DropAt<T>(s: seq<T>, index: int): (r: seq<T>)
    ensures |r| == if 0 <= index < |s| then |s| - 1 else |s|
  {
    if s == [] then [] else (if index == 0 then [] else [s[0]]) + DropAt(s[1..], index - 1)
  }

  /** The index filter removes exactly the element at `index`, or nothing when it is out of range. */
  lemma {:induction false} DropAtIsSplice<T>(s: seq<T>, index: int)
    ensures DropAt(s, index) == if 0 <= index < |s| then s[..index] + s[index + 1..] else s
  {
    if s != [] {
      assert DropAt(s, index) == (if index == 0 then [] else [s[0]]) + DropAt(s[1..], index - 1);
      DropAtIsSplice(s[1..], index - 1);
      if 0 < index < |s| {
        assert s[1..][..index - 1] == s[1..index];
        assert [s[0]] + s[1..index] == s[..index];
      }
    }
  }

  /** Position in `s` of the `v`-th element satisfying `p`, or -1 when fewer do. */
  function NthIndex<T(==)>(s: seq<T>, p: T -> bool, v: int): (k: int)
    ensures 0 <= v < |Filter(s, p)| ==> 0 <= k < |s| && s[k] == Filter(s, p)[v]
    ensures !(0 <= v < |Filter(s, p)|) ==> k == -1
  {
    if s == [] || v < 0 then -1
    else
      var rest := Filter(s[1..], p);
      assert Filter(s, p) == (if p(s[0]) then [s[0]] + rest else rest);
      var w := if p(s[0]) then v - 1 else v;
      if p(s[0]) && v == 0 then 0
      else
        var k := NthIndex(s[1..], p, w);
        assert 0 <= w < |rest| ==> s[k + 1] == rest[w] == Filter(s, p)[v];
        if k == -1 then -1 else k + 1
  }

  lemma DropFirst<T>(s: seq<T>)
    requires s != []
    ensures DropAt(s, 0) == s[1..]
  {
    DropAtIsSplice(s, 0);
  }

  /** When every element passes, the `v`-th passing element is simply at position `v`. */
  lemma {:induction false} NthIndexAllPass<T>(s: seq<T>, p: T -> bool, v: int)
    requires forall i :: 0 <= i < |s| ==> p(s[i])
    ensures NthIndex(s, p, v) == if 0 <= v < |s| then v else -1
  {
    if s != [] && 0 < v {
      NthIndexAllPass(s[1..], p, v - 1);
      assert p(s[0]);
      var k := NthIndex(s[1..], p, v - 1);
      assert NthIndex(s, p, v) == if k == -1 then -1 else k + 1;
    } else if s != [] && v == 0 {
      assert p(s[0]);
    }
  }

  /** Dropping the `v`-th element that passes `p` takes exactly that one out of the filtered list. */
  lemma {:induction false} DropNthFiltered<T>(s: seq<T>, p: T -> bool, v: int)
    requires 0 <= v < |Filter(s, p)|
    ensures Filter(DropAt(s, NthIndex(s, p, v)), p) == Filter(s, p)[..v] + Filter(s, p)[v + 1..]
    decreases |s|, 1
  {
    if p(s[0]) && v == 0 {
      DropFirstFiltered(s, p);
    } else if p(s[0]) {
      DropLaterShown(s, p, v);
    } else {
      DropLaterHidden(s, p, v);
    }
  }

  lemma DropFirstFiltered<T>(s: seq<T>, p: T -> bool)
    requires s != [] && p(s[0])
    ensures NthIndex(s, p, 0) == 0
    ensures Filter(DropAt(s, 0), p) == Filter(s, p)[..0] + Filter(s, p)[1..]
  {
    DropFirst(s);
    assert Filter(s, p) == [s[0]] + Filter(s[1..], p);
  }

  /** The `v`-th passing element lies after a passing head. */
  lemma {:induction false} DropLaterShown<T>(s: seq<T>, p: T -> bool, v: int)
    requires s != [] && p(s[0]) && 0 < v < |Filter(s, p)|
    ensures Filter(DropAt(s, NthIndex(s, p, v)), p) == Filter(s, p)[..v] + Filter(s, p)[v + 1..]
    decreases |s|, 0
  {
    var rest := s[1..];
    var fr := Filter(rest, p);
    assert Filter(s, p) == [s[0]] + fr;
    DropNthFiltered(rest, p, v - 1);
    var k := NthIndex(rest, p, v - 1);
    NthIndexAfterShown(s, p, v);
    DropAtStep(s, k);
    FilterOfPrepend(s[0], DropAt(rest, k), p);
    ConsSplice(s[0], fr, v, Filter(DropAt(rest, k), p));
  }

  lemma NthIndexAfterShown<T>(s: seq<T>, p: T -> bool, v: int)
    requires s != [] && p(s[0]) && 0 < v < |Filter(s, p)|
    ensures 0 <= NthIndex(s[1..], p, v - 1) < |s| - 1
    ensures NthIndex(s, p, v) == NthIndex(s[1..], p, v - 1) + 1
  {
    assert Filter(s, p) == [s[0]] + Filter(s[1..], p);
  }

  lemma DropAtStep<T>(s: seq<T>, k: int)
    requires s != [] && 0 <= k
    ensures DropAt(s, k + 1) == [s[0]] + DropAt(s[1..], k)
  {
  }

  lemma ConsSplice<T>(x: T, f: seq<T>, v: int, d: seq<T>)
    requires 0 < v <= |f| && d == f[..v - 1] + f[v..]
    ensures [x] + d == ([x] + f)[..v] + ([x] + f)[v + 1..]
  {
    assert ([x] + f)[..v] == [x] + f[..v - 1];
    assert ([x] + f)[v + 1..] == f[v..];
  }

  /** The `v`-th passing element lies after a head that does not pass. */
  lemma {:induction false} DropLaterHidden<T>(s: seq<T>, p: T -> bool, v: int)
    requires s != [] && !p(s[0]) && 0 <= v < |Filter(s, p)|
    ensures Filter(DropAt(s, NthIndex(s, p, v)), p) == Filter(s, p)[..v] + Filter(s, p)[v + 1..]
    decreases |s|, 0
  {
    var rest := s[1..];
    assert Filter(s, p) == Filter(rest, p);
    DropNthFiltered(rest, p, v);
    var k := NthIndex(rest, p, v);
    NthIndexAfterHidden(s, p, v);
    DropAtStep(s, k);
    FilterOfPrepend(s[0], DropAt(rest, k), p);
  }

  lemma NthIndexAfterHidden<T>(s: seq<T>, p: T -> bool, v: int)
    requires s != [] && !p(s[0]) && 0 <= v < |Filter(s, p)|
    ensures 0 <= NthIndex(s[1..], p, v) < |s| - 1
    ensures NthIndex(s, p, v) == NthIndex(s[1..], p, v) + 1
  {
    assert Filter(s, p) == Filter(s[1..], p);
  }
}

=== FILE: js_string.dfy ===
/**
 * The three string methods the dashboard calls: `trim` (to reject a blank
 * category name), `toLowerCase` and `includes` (for the search box).
 */
module JsString {

  /** The characters `trim` strips: ECMAScript WhiteSpace and LineTerminator code points. */
  predicate IsWhitespace(c: char) {
    || c == '\t' || c == '\n' || c == '\U{000B}' || c == '\U{000C}' || c == '\r' || c == ' '
    || c == '\U{00A0}' || c == '\U{1680}' || ('\U{2000}' <= c <= '\U{200A}')
    || c == '\U{2028}' || c == '\U{2029}' || c == '\U{202F}' || c == '\U{205F}'
    || c == '\U{3000}' || c == '\U{FEFF}'
  }

  predicate AllWhitespace(s: string) {
    forall i :: 0 <= i < |s| ==> IsWhitespace(s[i])
  }

  /** Drops the leading whitespace: what is left is a suffix of `s` that starts with a non-blank. */
  function TrimStart(s: string): (r: string)
    ensures |r| <= |s| && r == s[|s| - |r|..]
    ensures AllWhitespace(s[..|s| - |r|])
    ensures r == [] || !IsWhitespace(r[0])
    decreases |s|
  {
    if s != [] && IsWhitespace(s[0]) then
      var r := TrimStart(s[1..]);
      assert s[1..][|s| - 1 - |r|..] == s[|s| - |r|..];
      assert s[..|s| - |r|] == [s[0]] + s[1..][..|s| - 1 - |r|];
      r
    else s
  }

  /** Drops the trailing whitespace: what is left is a prefix of `s` that ends with a non-blank. */
  function TrimEnd(s: string): (r: string)
    ensures |r| <= |s| && r == s[..|r|]
    ensures AllWhitespace(s[|r|..])
    ensures r == [] || !IsWhitespace(r[|r| - 1])
    decreases |s|
  {
    if s != [] && IsWhitespace(s[|s| - 1]) then
      var t := s[..|s| - 1];
      var r := TrimEnd(t);
      assert t[..|r|] == s[..|r|];
      assert s[|r|..] == t[|r|..] + [s[|s| - 1]];
      r
    else s
  }

  /** `String.prototype.trim`: empty exactly when `s` is all whitespace, otherwise non-blank at both ends. */
  function Trim(s: string): (r: string)
    ensures |r| <= |s|
    ensures r == [] <==> AllWhitespace(s)
    ensures r == [] || (!IsWhitespace(r[0]) && !IsWhitespace(r[|r| - 1]))
  {
    TrimEnd(TrimStart(s))
  }

  function LowerChar(c: char): char {
    if 'A' <= c <= 'Z' then (c as int - 'A' as int + 'a' as int) as char else c
  }

  /** `String.prototype.toLowerCase` on ASCII: upper-case letters become lower-case, nothing else moves. */
  function ToLower(s: string): (r: string)
    ensures |r| == |s|
    ensures forall i :: 0 <= i < |r| ==> !('A' <= r[i] <= 'Z')
    ensures forall i :: 0 <= i < |s| && !('A' <= s[i] <= 'Z') ==> r[i] == s[i]
    ensures forall i :: 0 <= i < |s| && 'A' <= s[i] <= 'Z' ==> r[i] as int == s[i] as int + 32
  {
    seq(|s|, i requires 0 <= i < |s| => LowerChar(s[i]))
  }

  /** `t` occurs in `s` starting at position `i`. */
  predicate OccursAt(s: string, t: string, i: int) {
    0 <= i && i + |t| <= |s| && s[i..i + |t|] == t
  }

  /** `String.prototype.includes`, trying start positions from the left. */
  function Includes(s: string, t: string): (b: bool)
    ensures b ==> |t| <= |s|
    ensures t == [] ==> b
    ensures s == t ==> b
    decreases |s|
  {
    (|t| <= |s| && s[..|t|] == t) || (s != [] && Includes(s[1..], t))
  }

  /** The scan finds `t` exactly when `t` occurs somewhere in `s`. */
  lemma {:induction false} IncludesIffOccurs(s: string, t: string)
    ensures Includes(s, t) <==> exists i :: OccursAt(s, t, i)
    decreases |s|
  {
    if |t| <= |s| && s[..|t|] == t {
      assert OccursAt(s, t, 0);
    } else if s == [] {
      assert forall i :: !OccursAt(s, t, i);
    } else {
      assert Includes(s, t) == Includes(s[1..], t);
      IncludesIffOccurs(s[1..], t);
      if Includes(s[1..], t) {
        var i :| OccursAt(s[1..], t, i);
        assert s[1..][i..i + |t|] == s[i + 1..i + 1 + |t|];
        assert OccursAt(s, t, i + 1);
      } else {
        forall i | 0 <= i ensures !OccursAt(s, t, i) {
          if i != 0 && i + |t| <= |s| {
            assert s[1..][i - 1..i - 1 + |t|] == s[i..i + |t|];
            assert !OccursAt(s[1..], t, i - 1);
          }
        }
      }
    }
  }
}

=== FILE: removal.dfy ===
/**
 * Removing a widget: drop the widget at an index from every category of the
 * given name, then prune every category left without widgets.
 */
module Removal {
  import opened JsArray
  import opened Catalog

  /** The `map` step: a category of that name loses the widget at `index`; others are returned as they are. */
  function Touch(c: Category, name: string, index: int): (r: Category)
    ensures r.name == c.name
    ensures r.buttons == if c.name == name && 0 <= index < |c.buttons|
      then c.buttons[..index] + c.buttons[index + 1..] else c.buttons
  {
    DropAtIsSplice(c.buttons, index);
    if c.name == name then c.(buttons := DropAt(c.buttons, index)) else c
  }

  predicate NonEmpty(c: Category) {
    |c.buttons| > 0
  }

  /** The catalog after removing the widget at `index` from each category called `name`. */
  function WithoutButton(cats: seq<Category>, name: string, index: int): (r: seq<Category>)
    ensures forall i :: 0 <= i < |r| ==> |r[i].buttons| > 0
  {
    Filter(Map(cats, c => Touch(c, name, index)), NonEmpty)
  }

  /** The surviving categories are among the old ones and keep their relative order. */
  lemma WithoutButtonKeepsOrder(cats: seq<Category>, name: string, index: int)
    ensures IsSubsequence(Names(WithoutButton(cats, name, index)), Names(cats))
    ensures UniqueNames(cats) ==> UniqueNames(WithoutButton(cats, name, index))
  {
    var touched := Map(cats, c => Touch(c, name, index));
    var r := WithoutButton(cats, name, index);
    FilterIsSubsequence(touched, NonEmpty);
    SubsequenceMap(r, touched, NameOf);
    assert Names(touched) == Names(cats);
    if UniqueNames(cats) {
      SubsequenceDistinct(Names(r), Names(cats));
    }
  }

  /** A category of another name is in the result exactly when it was in the catalog with widgets. */
  lemma WithoutButtonKeepsOthers(cats: seq<Category>, name: string, index: int, c: Category)
    requires c.name != name
    ensures c in WithoutButton(cats, name, index) <==> c in cats && NonEmpty(c)
  {
    var touched := Map(cats, c => Touch(c, name, index));
    FilterMembers(touched, NonEmpty);
    if c in touched {
      var i :| 0 <= i < |touched| && touched[i] == c;
      assert cats[i] == c;
    }
    if c in cats {
      var i :| 0 <= i < |cats| && cats[i] == c;
      assert touched[i] == c;
    }
  }

  /**
   * Every category called `name` comes out as the same category less the widget
   * at `index`, and is kept exactly when something is left.
   */
  lemma WithoutButtonFromNamed(cats: seq<Category>, name: string, index: int)
    ensures forall i :: 0 <= i < |cats| && cats[i].name == name && |DropAt(cats[i].buttons, index)| > 0 ==>
      Category(name, DropAt(cats[i].buttons, index)) in WithoutButton(cats, name, index)
    ensures forall c :: c in WithoutButton(cats, name, index) && c.name == name ==>
      exists i :: 0 <= i < |cats| && cats[i].name == name && c.buttons == DropAt(cats[i].buttons, index)
  {
    var touched := Map(cats, c => Touch(c, name, index));
    FilterMembers(touched, NonEmpty);
    forall i | 0 <= i < |cats| && cats[i].name == name && |DropAt(cats[i].buttons, index)| > 0
      ensures Category(name, DropAt(cats[i].buttons, index)) in WithoutButton(cats, name, index)
    {
      assert touched[i] == Category(name, DropAt(cats[i].buttons, index));
    }
    forall c | c in WithoutButton(cats, name, index) && c.name == name
      ensures exists i :: 0 <= i < |cats| && cats[i].name == name && c.buttons == DropAt(cats[i].buttons, index)
    {
      var i :| 0 <= i < |touched| && touched[i] == c;
      assert cats[i].name == name;
    }
  }

  /** An unknown name or an out-of-range index removes no widget, yet empty categories are still pruned. */
  lemma RemoveNothingStillPrunes(cats: seq<Category>, name: string, index: int)
    requires forall i :: 0 <= i < |cats| && cats[i].name == name ==> !(0 <= index < |cats[i].buttons|)
    ensures WithoutButton(cats, name, index) == Filter(cats, NonEmpty)
  {
    var touched := Map(cats, c => Touch(c, name, index));
    forall i | 0 <= i < |cats| ensures touched[i] == cats[i] {
      DropAtIsSplice(cats[i].buttons, index);
    }
    assert touched == cats;
  }
}

=== FILE: view.dfy ===
/**
 * What the dashboard displays: widgets whose label contains the search term
 * (ignoring case), categories left empty dropped, then only the selected
 * category when one is selected. Also the remove button of the displayed
 * list, whose index refers to the displayed widgets.
 */
module View {
  import opened JsArray
  import opened JsString
  import opened Catalog
  import opened Removal

  /** The widget's label contains the search term, both lower-cased. */
  predicate Matches(w: Widget, term: string) {
    Includes(ToLower(w.text), ToLower(term))
  }

  /** The widgets of one category that the search term lets through, in their order. */
  function Shown(bs: seq<Widget>, term: string): seq<Widget> {
    Filter(bs, MatchesTerm(term))
  }

  function MatchesTerm(term: string): Widget -> bool {
    w => Matches(w, term)
  }

  function FilterButtons(c: Category, term: string): Category {
    c.(buttons := Shown(c.buttons, term))
  }

  /** `filteredCategories`: each category cut down to its matching widgets, empty ones dropped. */
  function FilteredCategories(cats: seq<Category>, term: string): (r: seq<Category>)
    ensures |r| <= |cats|
    ensures forall i :: 0 <= i < |r| ==> |r[i].buttons| > 0
    ensures forall i, k :: 0 <= i < |r| && 0 <= k < |r[i].buttons| ==> Matches(r[i].buttons[k], term)
  {
    CutKeepsMatches(cats, term);
    Filter(Map(cats, Cut(term)), NonEmpty)
  }

  lemma CutKeepsMatches(cats: seq<Category>, term: string)
    ensures forall c, k :: c in Filter(Map(cats, Cut(term)), NonEmpty) && 0 <= k < |c.buttons| ==> Matches(c.buttons[k], term)
  {
    var touched := Map(cats, Cut(term));
    FilterMembers(touched, NonEmpty);
    forall c, k | c in Filter(touched, NonEmpty) && 0 <= k < |c.buttons| ensures Matches(c.buttons[k], term) {
      var j :| 0 <= j < |touched| && touched[j] == c;
      assert c.buttons == Shown(cats[j].buttons, term);
    }
  }

  function Cut(term: string): Category -> Category {
    (c: Category) => FilterButtons(c, term)
  }

  /** The selection filter: everything when nothing is selected, otherwise the categories of that exact name. */
  function SelectCategory(cats: seq<Category>, selected: string): (r: seq<Category>)
    ensures |r| <= |cats|
    ensures forall i :: 0 <= i < |r| ==> selected == "" || r[i].name == selected
    ensures selected == "" ==> r == cats
    ensures forall c :: c in r ==> c in cats
    ensures forall c :: c in cats && (selected == "" || c.name == selected) ==> c in r
  {
    FilterMembers(cats, Selection(selected));
    assert selected == "" ==> Filter(cats, Selection(selected)) == cats by {
      if selected == "" {
        FilterKeepsAll(cats, Selection(selected));
      }
    }
    Filter(cats, Selection(selected))
  }

  /** Every category when nothing is selected, otherwise those whose name is exactly the selected one. */
  function Selection(selected: string): Category -> bool {
    (c: Category) => selected == "" || c.name == selected
  }

  /** The list of categories rendered: text filter first, category filter second. */
  function Displayed(cats: seq<Category>, term: string, selected: string): (r: seq<Category>)
    ensures |r| <= |cats|
    ensures forall i :: 0 <= i < |r| ==> |r[i].buttons| > 0 && (selected == "" || r[i].name == selected)
  {
    var filtered := FilteredCategories(cats, term);
    var r := SelectCategory(filtered, selected);
    assert forall i :: 0 <= i < |r| ==> |r[i].buttons| > 0 by {
      forall i | 0 <= i < |r| ensures |r[i].buttons| > 0 {
        assert r[i] in filtered;
        var j :| 0 <= j < |filtered| && filtered[j] == r[i];
      }
    }
    r
  }

  /** Everything displayed is non-empty, matches the search term and belongs to the selection. */
  lemma DisplayedSound(cats: seq<Category>, term: string, selected: string)
    ensures forall c :: c in Displayed(cats, term, selected) ==>
      && |c.buttons| > 0
      && (selected != "" ==> c.name == selected)
      && forall w :: w in c.buttons ==> Includes(ToLower(w.text), ToLower(term))
  {
    forall c | c in Displayed(cats, term, selected)
      ensures |c.buttons| > 0 && (selected != "" ==> c.name == selected)
      ensures forall w :: w in c.buttons ==> Includes(ToLower(w.text), ToLower(term))
    {
      FilterMembers(FilteredCategories(cats, term), Selection(selected));
      FilterMembers(Map(cats, Cut(term)), NonEmpty);
      DisplayedFromCatalog(cats, term, selected, c);
      var i :| 0 <= i < |cats| && c == FilterButtons(cats[i], term);
      FilterMembers(cats[i].buttons, MatchesTerm(term));
    }
  }

  /**
   * Conversely, a category that belongs to the selection and has a matching
   * widget is displayed, cut down to its matching widgets.
   */
  lemma DisplayedComplete(cats: seq<Category>, term: string, selected: string, i: int)
    requires 0 <= i < |cats| && (selected == "" || cats[i].name == selected)
    requires |Shown(cats[i].buttons, term)| > 0
    ensures FilterButtons(cats[i], term) in Displayed(cats, term, selected)
  {
    var touched := Map(cats, Cut(term));
    var c := FilterButtons(cats[i], term);
    assert touched[i] == c && NonEmpty(c);
    FilterMembers(touched, NonEmpty);
    FilterMembers(FilteredCategories(cats, term), Selection(selected));
    assert c in FilteredCategories(cats, term);
    assert Selection(selected)(c);
  }

  /** And nothing else is displayed: each displayed category is a catalog category cut down by the search. */
  lemma DisplayedFromCatalog(cats: seq<Category>, term: string, selected: string, c: Category)
    requires c in Displayed(cats, term, selected)
    ensures exists i :: 0 <= i < |cats| && c == FilterButtons(cats[i], term)
  {
    var touched := Map(cats, Cut(term));
    FilterMembers(touched, NonEmpty);
    FilterMembers(FilteredCategories(cats, term), Selection(selected));
    assert c in FilteredCategories(cats, term);
    assert c in touched;
    var i :| 0 <= i < |touched| && touched[i] == c;
    assert c == FilterButtons(cats[i], term);
  }

  /** The displayed categories appear in catalog order. */
  lemma DisplayedKeepsOrder(cats: seq<Category>, term: string, selected: string)
    ensures IsSubsequence(Displayed(cats, term, selected), Map(cats, Cut(term)))
    ensures IsSubsequence(Names(Displayed(cats, term, selected)), Names(cats))
  {
    var touched := Map(cats, Cut(term));
    var filtered := FilteredCategories(cats, term);
    var shown := Displayed(cats, term, selected);
    FilterIsSubsequence(touched, NonEmpty);
    FilterIsSubsequence(filtered, Selection(selected));
    SubsequenceTransitive(shown, filtered, touched);
    SubsequenceMap(shown, touched, NameOf);
    assert Names(touched) == Names(cats);
  }

  /** With an empty search term the text filter only drops the empty categories. */
  lemma EmptySearchShowsAll(cats: seq<Category>)
    ensures FilteredCategories(cats, "") == Filter(cats, NonEmpty)
  {
    var touched := Map(cats, Cut(""));
    forall i | 0 <= i < |cats| ensures touched[i] == cats[i] {
      forall w | w in cats[i].buttons ensures Matches(w, "") {
        assert ToLower("") == "";
      }
      FilterKeepsAll(cats[i].buttons, MatchesTerm(""));
    }
    assert touched == cats;
  }

  /** With no category selected the displayed list is the text-filtered list. */
  lemma NoSelectionShowsFiltered(cats: seq<Category>, term: string)
    ensures Displayed(cats, term, "") == FilteredCategories(cats, term)
  {
    FilterKeepsAll(FilteredCategories(cats, term), Selection(""));
  }

  /** Selecting first and searching second would display the same list. */
  lemma FilterOrderIrrelevant(cats: seq<Category>, term: string, selected: string)
    ensures Displayed(cats, term, selected) == FilteredCategories(SelectCategory(cats, selected), term)
  {
    FilterCommutes(Map(cats, Cut(term)), NonEmpty, Selection(selected));
    FilterMapSwap(cats, Cut(term), Selection(selected));
  }

  /**
   * The remove button as rendered: the index it passes is the widget's position
   * in the displayed (search-filtered) list, but it is applied to the full list.
   * `term` is the search term in effect at the click; it is not passed on.
   */
  function RemoveAtViewIndex(cats: seq<Category>, term: string, name: string, viewIndex: int): (r: seq<Category>)
    ensures forall i :: 0 <= i < |r| ==> |r[i].buttons| > 0
    ensures term == "" ==> r == WithoutShownButton(cats, term, name, viewIndex)
  {
    assert term == "" ==> WithoutButton(cats, name, viewIndex) == WithoutShownButton(cats, term, name, viewIndex) by {
      if term == "" {
        NoSearchTermSameRemoval(cats, name, viewIndex);
      }
    }
    WithoutButton(cats, name, viewIndex)
  }

  /** With search term "y", clicking the one displayed widget "y" of category "A" removes the hidden "x" instead. */
  lemma ViewIndexRemovesHiddenWidget()
    ensures var x, y := Widget("x", ""), Widget("y", "");
      var cats := [Category("A", [x, y])];
      && Displayed(cats, "y", "") == [Category("A", [y])]
      && RemoveAtViewIndex(cats, "y", "A", 0) == [Category("A", [y])]
      && Displayed(RemoveAtViewIndex(cats, "y", "A", 0), "y", "") == Displayed(cats, "y", "")
  {
    var x, y := Widget("x", ""), Widget("y", "");
    var cats := [Category("A", [x, y])];
    var shown := [Category("A", [y])];
    ShownOnlyY(x, y);
    assert Map(cats, Cut("y")) == shown;
    FilterKeepsAll(shown, NonEmpty);
    NoSelectionShowsFiltered(cats, "y");
    assert Displayed(cats, "y", "") == shown;
    assert DropAt([x, y], 0) == [y] by {
      DropAtIsSplice([x, y], 0);
    }
    assert Map(cats, c => Touch(c, "A", 0)) == shown;
    assert RemoveAtViewIndex(cats, "y", "A", 0) == shown;
    assert Shown([y], "y") == [y] by {
      FilterKeepsAll([y], MatchesTerm("y"));
    }
    assert Map(shown, Cut("y")) == shown;
    NoSelectionShowsFiltered(shown, "y");
  }

  lemma ShownOnlyY(x: Widget, y: Widget)
    requires x == Widget("x", "") && y == Widget("y", "")
    ensures Shown([x, y], "y") == [y]
  {
    assert ToLower("x") == "x" && ToLower("y") == "y";
    assert "x"[..1] != "y" && "x"[1..] == "";
    assert !Matches(x, "y") && Matches(y, "y");
    FilterOfPrepend(y, [], MatchesTerm("y"));
    assert [y] + [] == [y];
    FilterOfPrepend(x, [y], MatchesTerm("y"));
    assert [x] + [y] == [x, y];
  }

  /** Position in `bs` of the `v`-th widget the search term shows, or -1 when fewer are shown. */
  function ShownIndex(bs: seq<Widget>, term: string, v: int): int {
    NthIndex(bs, MatchesTerm(term), v)
  }

  /** The remove button with the displayed position translated back to the full list. */
  function WithoutShownButton(cats: seq<Category>, term: string, name: string, viewIndex: int): (r: seq<Category>)
    ensures forall i :: 0 <= i < |r| ==> |r[i].buttons| > 0
  {
    Filter(Map(cats, TouchShown(term, name, viewIndex)), NonEmpty)
  }

  /** The `map` step of the corrected button: the shown position is translated before dropping. */
  function TouchShown(term: string, name: string, viewIndex: int): Category -> Category {
    (c: Category) => if c.name == name then c.(buttons := DropAt(c.buttons, ShownIndex(c.buttons, term, viewIndex))) else c
  }

  /**
   * After clicking the remove button of the `v`-th displayed widget, each category
   * of that name shows its previous widgets less exactly that one.
   */
  lemma WithoutShownButtonHidesClicked(cats: seq<Category>, term: string, name: string, v: int, i: int)
    requires 0 <= i < |cats| && cats[i].name == name
    requires 0 <= v < |Shown(cats[i].buttons, term)|
    ensures var shown := Shown(cats[i].buttons, term);
      var after := DropAt(cats[i].buttons, ShownIndex(cats[i].buttons, term, v));
      && Shown(after, term) == shown[..v] + shown[v + 1..]
      && (|after| > 0 ==> Category(name, after) in WithoutShownButton(cats, term, name, v))
  {
    var touched := Map(cats, TouchShown(term, name, v));
    DropNthFiltered(cats[i].buttons, MatchesTerm(term), v);
    FilterMembers(touched, NonEmpty);
    assert touched[i] == Category(name, DropAt(cats[i].buttons, ShownIndex(cats[i].buttons, term, v)));
  }

  /**
   * Nothing else changes: a category of another name survives exactly when it had
   * widgets, and each surviving category of the clicked name is a catalog category
   * of that name less the widget at the translated position.
   */
  lemma WithoutShownButtonKeepsOthers(cats: seq<Category>, term: string, name: string, v: int, c: Category)
    requires c.name != name
    ensures c in WithoutShownButton(cats, term, name, v) <==> c in cats && NonEmpty(c)
    ensures forall d :: d in WithoutShownButton(cats, term, name, v) && d.name == name ==>
      exists i :: 0 <= i < |cats| && cats[i].name == name && d.buttons == DropAt(cats[i].buttons, ShownIndex(cats[i].buttons, term, v))
  {
    var touched := Map(cats, TouchShown(term, name, v));
    FilterMembers(touched, NonEmpty);
    if c in touched {
      var i :| 0 <= i < |touched| && touched[i] == c;
      assert cats[i] == c;
    }
    if c in cats {
      var i :| 0 <= i < |cats| && cats[i] == c;
      assert touched[i] == c;
    }
    forall d | d in WithoutShownButton(cats, term, name, v) && d.name == name
      ensures exists i :: 0 <= i < |cats| && cats[i].name == name && d.buttons == DropAt(cats[i].buttons, ShownIndex(cats[i].buttons, term, v))
    {
      var i :| 0 <= i < |touched| && touched[i] == d;
      assert cats[i].name == name;
    }
  }

  /** With no search term the displayed positions are the catalog positions, so both buttons agree. */
  lemma NoSearchTermSameRemoval(cats: seq<Category>, name: string, v: int)
    ensures WithoutShownButton(cats, "", name, v) == WithoutButton(cats, name, v)
  {
    var fixed := Map(cats, TouchShown("", name, v));
    var asWritten := Map(cats, c => Touch(c, name, v));
    forall i | 0 <= i < |cats| ensures fixed[i] == asWritten[i] {
      var bs := cats[i].buttons;
      forall j | 0 <= j < |bs| ensures MatchesTerm("")(bs[j]) {
        assert ToLower("") == "";
      }
      NthIndexAllPass(bs, MatchesTerm(""), v);
      DropAtIsSplice(bs, v);
      DropAtIsSplice(bs, -1);
    }
    assert fixed == asWritten;
  }
}

=== FILE: wrappers.dfy ===
/** Optional values: a storage slot that may hold nothing. */
module Wrappers {

  datatype Option<+T> = None | Some(value: T)
}
